=== FILE: README.md ===
# User department catalog — a Dafny model of the form's record logic

The application keeps a table of people (`User`: id, name, email, age, description,
predicted department, chosen department) in a SQLite database and predicts each person's
department from their free-text description with a trained classifier. All of its logic
sits in the event handlers of one WinForms window. This project extracts the parts of
those handlers that decide something and models them as pure operations on the table:

- **Add** (`BtnAdd_Click`): four text boxes must be non-blank, the age text must parse as a
  C# `int`, and the email must be new to the table. Then the department is predicted from
  the description and exactly one row is appended. The checks run in that order and the
  first failure wins.
- **Update** (`BtnUpdate_Click`): rewrites name, email, age, description and department of
  the selected row. Its key and predicted department are kept. It checks neither for blank
  fields nor for duplicate emails.
- **Remove** (`BtnRemove_Click`): after confirmation, deletes the selected row.
- **Sort by age** (`SortUsersByAge`): a bubble sort that exchanges neighbours only when the
  left one is strictly older. It is modelled as a method on an array and proved to be the
  unique stable ordering by age.
- **Import** (`LoadUserDataFromFile`): the first line of a file must split on tabs into
  exactly four fields: name, email, age text, description.

The table is a `seq<User>` in the order the database lists it. Each operation returns a
`Step`, which holds the table afterwards and a status: done, nothing selected, cancelled,
or rejected with a reason. So "a failure changes nothing" is stated as `r.db == db`.

Modules: `Common` (Option/Result), `Text` (`char.IsWhiteSpace`, `string.Split`/join),
`Int32Text` (`int.TryParse`/`int.Parse` and `int.ToString`), `Users` (the record and the
table invariants), `Catalog` (add, update, remove), `CatalogProperties` (how they relate),
`AgeSort`, and `Import`.

Environment inputs become parameters:
- The trained classifier is `predict: Option<string -> string>`. `None` means no model has
  been built yet.
- The key the database assigns on insert is `newId`, required not to be in use.
- The user's answer to the removal dialog is `confirmed`.
- The grid's selected row is `selected: Option<int>`, its id.

The model follows what the handlers actually do, including where that is looser than one might expect:
- Negative ages are accepted; nothing requires age ≥ 0.
- Update does not keep emails unique. `CatalogProperties.UpdateCanDuplicateEmail` shows
  the update that leaves two rows with one email.
- Update does not reject blank fields.
- Add with no trained model fails. The code reaches the null prediction engine after the
  duplicate check and throws, before anything is saved. This is modelled as
  `Rejected(NoModelLoaded)`.
- A failed `int.Parse` in update throws before the database is touched. This is modelled as
  `Rejected(InvalidAge)`.
- Saving or deleting a row whose key is gone throws. This is modelled as
  `Rejected(NotFound)`.
- The model keeps the program's bubble sort and proves its result equals a reference stable
  insertion sort.

## Model

| member | source | states |
|---|---|---|
| Catalog.Add | Form1.cs:105-158 | Succeeds exactly when every text box is filled, the age text is an `int`, no row has the email and a model is loaded. Rejects with MissingField exactly when a text box is blank. Otherwise rejects with InvalidAge exactly when the age text is not an `int`, then with DuplicateEmail exactly when a row has the email, then with NoModelLoaded exactly when there is no model. Any rejection leaves the table unchanged. On success exactly one row is appended and the old rows are untouched. The new row has the fresh id, the form's fields, the parsed age, the predicted department and the selected department. Distinct ids, 32-bit ages and distinct emails are preserved. |
| Catalog.Insert | Form1.cs:128-153 | After the text and age checks: rejects with DuplicateEmail exactly when a row has the email. Otherwise rejects with NoModelLoaded exactly when no model is loaded, and succeeds exactly when both checks pass. A rejection leaves the table unchanged. Success appends, after the unchanged old rows, the row with the fresh id, the form's fields, the age, the predicted department and the selected department. |
| Catalog.Update | Form1.cs:257-281 | Succeeds exactly when a row is selected, the age text parses and the selected id is present. Does nothing without a selection. Rejects with InvalidAge exactly when the age text does not parse. Rejects with NotFound exactly when the selected id is gone. On success the table length, every id and every predicted department are kept. Rows with another id are unchanged. The selected row takes the form's name, email, parsed age, description and department. Distinct ids and 32-bit ages are preserved. |
| Catalog.Remove | Form1.cs:283-305 | Succeeds exactly when a row is selected, the user confirms and the id is present. Does nothing without a selection. Cancelled exactly when the user does not confirm. NotFound exactly when the id is gone. On success the table holds exactly the old rows with another id. With distinct ids it is one row shorter: the old table with that one row cut out and the others in their old order. Both invariants and email uniqueness are preserved. |
| Catalog.WithoutMembers | Form1.cs:296-297 | Deleting by key keeps exactly the rows whose id differs. |
| Catalog.WithoutPresent | Form1.cs:296-297 | With distinct ids, deleting a present key removes exactly one row. |
| Catalog.WithoutAt | Form1.cs:296-297 | Deleting the only row with a key closes the gap: the rows before and after it keep their order. |
| CatalogProperties.AddSameEmailRefused | Form1.cs:131-135 | After a successful add, a second add with the same email that passes the text and age checks is refused with DuplicateEmail. The table stays at one more row than before. |
| CatalogProperties.AddThenRemoveRestores | Form1.cs:141-152 | Removing the row an add just appended, by its new id, gives back exactly the table from before the add. |
| CatalogProperties.Selected | Form1.cs:241-254 | Selecting a grid row copies that row's name, email and description into the form. The age text parses back to the stored age. A department the drop-down offers, or none, is selected as is. An unknown one leaves the previous selection `shown`. `UpdateUnchangedSelectionIsNoOp` shows an update of that form changes nothing. |
| CatalogProperties.UpdateUnchangedSelectionIsNoOp | Form1.cs:241-281 | Selecting a grid row that matches its table row fills the form, with the age written by `ToString`. Pressing update without editing then leaves the table identical, provided the row's department is one the drop-down offers. |
| CatalogProperties.UpdateCanDuplicateEmail | Form1.cs:265-274 | Update, given an age text that parses, accepts one row taking another row's email, and the resulting table has two rows with the same email. |
| AgeSort.SortUsersByAge | Form1.cs:201-227 | The bubble-sorted rows are non-decreasing in age and a permutation of the input. Each age keeps its rows in input order. The result equals the reference stable sort. |
| AgeSort.BubblePass | Form1.cs:210-218 | One inner pass keeps the rows and their order within each age, and grows the sorted, no-younger back of the list by one position. |
| AgeSort.CompareExchangeStep | Form1.cs:212-217 | One compare-and-exchange keeps the rows and their order within each age, keeps the sorted back, and carries the oldest row seen so far to position `j + 1`. |
| AgeSort.PassComplete | Form1.cs:208-210 | After pass `i`, the last `i + 1` positions are sorted and no younger than any position before them. |
| AgeSort.SwapKeepsAgeOrder | Form1.cs:212-216 | Exchanging neighbours of different ages, the only exchange the strict `>` allows, keeps the order of rows within every age. |
| AgeSort.StableOrderUnique | Form1.cs:205-219 | Two sequences that are both sorted by age and agree on the order within every age are equal. So a stable sort by age has exactly one result. |
| AgeSort.StableSortByAgeCorrect | Form1.cs:205-219 | The reference insertion sort is sorted by age, stable, and a permutation of its input. |
| Int32Text.ParseInt32 | Form1.cs:122 | `int.TryParse` with the default number style yields only values in the 32-bit range. Its value on `[white space][sign]digits[white space]` text is given by `ParseSignedText` with `ParseIgnoresPadding`. |
| Int32Text.ParseSignedText | Form1.cs:122 | An optional `+` or `-` followed by decimal digits parses to the value the digits denote, negated for `-`, with leading zeros allowed. It succeeds exactly when that value is in the 32-bit range. So "+5" gives 5 and "007" gives 7. |
| Int32Text.ParsedCharacters | Form1.cs:122 | Accepted text consists only of number white space, signs and digits, with at least one digit. So blank text and words are refused. |
| Int32Text.ParseIgnoresPadding | Form1.cs:122 | Leading and trailing white space of U+0009..U+000D and U+0020 does not change the result. |
| Int32Text.FormatInt32 | Form1.cs:250 | `Age.ToString()` writes a `-` exactly for negative values, then decimal digits with no leading zero. `ParseFormatRoundTrip` shows the parser reads the value back. |
| Int32Text.ParseFormatRoundTrip | Form1.cs:250 | Parsing the `ToString` of any 32-bit integer gives the integer back. |
| Int32Text.ParseRefusesOutOfRange | Form1.cs:122 | Decimal text of a value outside the 32-bit range is refused, not wrapped. |
| Text.Split | Form1.cs:342 | `Split('\t')` returns one more part than there are tabs. No part contains a tab, and joining the parts with tabs gives the line back. |
| Text.SplitJoin | Form1.cs:342 | Splitting tab-joined, tab-free parts gives back exactly those parts, empty ones included. |
| Import.LoadUserData | Form1.cs:333-364 | Fails with EmptyFile exactly when there are no lines. Succeeds exactly when the first line holds three tabs. The four tab-free fields it returns, joined by tabs, are the first line. |
| Import.ImportRoundTrip | Form1.cs:342-350 | Four tab-free fields written as the first line, followed by anything, are read back as the same name, email, age text and description. |
| Import.OnlyFirstLineMatters | Form1.cs:339-342 | Files that agree on their first line import alike. |

## Left out

- Model training, evaluation, saving, loading and prediction (`BuildAndTrainModel`,
  `SaveModel`, `LoadModel`, `PredictDepartment`, Form1.cs:38-101) wrap a machine-learning
  library, floating-point metrics and file I/O. Prediction is the uninterpreted parameter
  `predict`.
- `ModelBtn_Click` and `BtnPredict_Click_1` are background-task orchestration and label
  display, not logic.
- `ShowAllUsers`, `ClearFields`, `BtnClear_Click`, the grid binding and the designer file
  are presentation. `DataGridViewUsers_SelectionChanged` appears only as
  `CatalogProperties.Selected`, the form contents a selection produces.
- Message boxes, the file dialog, `File.ReadAllLines` (splitting a file into lines) and
  exception handling are I/O. Only their outcomes are modelled, as statuses and errors.
- The database engine: key generation is the `newId` parameter, and transactions are
  atomic steps on a sequence.
- The width of `Id` is not bounded, because ids are only compared.
- Int32Text.ParseInt32: culture-specific signs are not modelled (only '+' and '-'). Neither
  are the trailing NUL characters the .NET parser tolerates.
- CatalogProperties.Selected: when a row's department is not in the drop-down's list,
  WinForms keeps the previous selection. `Selected` models this with `shown`, and the
  round-trip lemma assumes a department the list offers.
- Update's partial change of the in-memory grid object before `int.Parse` throws (name and
  email already assigned, Form1.cs:265-267) is not modelled. The database copy is
  unchanged and that is what the model tracks.
- CatalogProperties.UpdateUnchangedSelectionIsNoOp: the model takes the grid row a
  selection reads (Form1.cs:246-251) to equal the table row. That holds after every
  reload of the grid (Form1.cs:156, 205, 278, 301), but not after an update whose
  `int.Parse` threw. There the edited name and email stay in the grid object, and a
  later selection and unedited update writes them to the table. The lemma covers only
  a grid that matches the table.
- Form1.cs as listed is one closing brace short in `LoadUserDataFromFile`. The brace
  at line 359 closes the `else` of line 356-357, but the `try` opened at line 335-336 is
  never closed before its `catch` at line 360. `Import.LoadUserData` models the evident
  structure, in which the `catch` covers the whole body.
- Sorting only rebinds the grid, so the table itself is not changed. The method returns
  the sorted copy.
- Training runs on a background task (`ModelBtn_Click`). That concurrency, and the
  classifier's data pipeline, are not record logic and are not modelled.
- Dafny strings are sequences of Unicode scalar values, while C# strings are UTF-16 code
  units. So text holding an unpaired surrogate cannot be represented. No modelled
  operation treats surrogates specially, so well-formed text behaves the same.

=== FILE: agesort.dfy ===
/** The sort button: the table's rows ordered by age with a bubble sort that exchanges
    neighbours only when the left one is strictly older, so rows of equal age keep their
    order. */
module AgeSort {
  import opened Users

  /** Ages never decrease from left to right. */
  predicate SortedByAge(s: seq<User>)
  {
    forall i, j | 0 <= i < j < |s| :: s[i].age <= s[j].age
  }

  /** The rows of age `k`, in the order they appear in `s`. */
  function WithAge(s: seq<User>, k: int): seq<User>
  {
    if |s| == 0 then []
    else (if s[0].age == k then [s[0]] else []) + WithAge(s[1..], k)
  }

  /** `s` and `t` list the rows of each age in the same order: reordering one into the other
      never moves a row past another row of the same age. */
  ghost predicate SameAgeOrder(s: seq<User>, t: seq<User>)
  {
    forall k :: WithAge(s, k) == WithAge(t, k)
  }

  lemma {:induction false} WithAgeAppend(a: seq<User>, b: seq<User>, k: int)
    ensures WithAge(a + b, k) == WithAge(a, k) + WithAge(b, k)
    decreases |a|
  {
    if |a| == 0 {
      assert a + b == b;
    } else {
      var head := if a[0].age == k then [a[0]] else [];
      assert (a + b)[0] == a[0];
      assert (a + b)[1..] == a[1..] + b;
      assert WithAge(a + b, k) == head + WithAge(a[1..] + b, k);
      WithAgeAppend(a[1..], b, k);
      assert WithAge(a, k) == head + WithAge(a[1..], k);
    }
  }

  lemma {:induction false} WithAgeMembers(s: seq<User>, k: int)
    ensures forall u :: u in WithAge(s, k) <==> u in s && u.age == k
    decreases |s|
  {
    if |s| > 0 {
      WithAgeMembers(s[1..], k);
      assert s == [s[0]] + s[1..];
    }
  }

  /** Exchanging two neighbours of different ages keeps the order within every age. */
  lemma SwapKeepsAgeOrder(s: seq<User>, j: int)
    requires 0 <= j < |s| - 1 && s[j].age != s[j + 1].age
    ensures SameAgeOrder(s[j := s[j + 1]][j + 1 := s[j]], s)
  {
    var t := s[j := s[j + 1]][j + 1 := s[j]];
    var front, x, y, back := s[..j], s[j], s[j + 1], s[j + 2..];
    assert s == (front + [x, y]) + back;
    assert t == (front + [y, x]) + back;
    forall k
      ensures WithAge(t, k) == WithAge(s, k)
    {
      WithAgeAppend(front + [x, y], back, k);
      WithAgeAppend(front, [x, y], k);
      WithAgeAppend(front + [y, x], back, k);
      WithAgeAppend(front, [y, x], k);
      PairSwapKeepsAgeOrder(x, y, k);
    }
  }

  /** Two rows of different ages never both have age `k`, so their order does not show in
      the rows of age `k`. */
  lemma PairSwapKeepsAgeOrder(x: User, y: User, k: int)
    requires x.age != y.age
    ensures WithAge([x, y], k) == WithAge([y, x], k)
  {
    assert [x, y][1..] == [y] && [y, x][1..] == [x];
    assert [y][1..] == [] && [x][1..] == [];
  }

  /** Places `x` before the first row that is not younger than it. */
  function InsertByAge(x: User, s: seq<User>): seq<User>
  {
    if |s| == 0 || x.age <= s[0].age then [x] + s
    else [s[0]] + InsertByAge(x, s[1..])
  }

  /** A reference stable sort by age: insertion sort, each row placed ahead of the
      rows of equal age that follow it. */
  function StableSortByAge(s: seq<User>): seq<User>
  {
    if |s| == 0 then [] else InsertByAge(s[0], StableSortByAge(s[1..]))
  }

  lemma {:induction false} InsertByAgeMultiset(x: User, s: seq<User>)
    ensures multiset(InsertByAge(x, s)) == multiset{x} + multiset(s)
    decreases |s|
  {
    if |s| > 0 && x.age > s[0].age {
      InsertByAgeMultiset(x, s[1..]);
      assert s == [s[0]] + s[1..];
    }
  }

  /** A lower bound on the ages of `x` and `s` bounds the ages after inserting `x`. */
  lemma {:induction false} InsertByAgeBound(x: User, s: seq<User>, b: int)
    requires b <= x.age && forall k | 0 <= k < |s| :: b <= s[k].age
    ensures forall k | 0 <= k < |InsertByAge(x, s)| :: b <= InsertByAge(x, s)[k].age
    decreases |s|
  {
    if |s| > 0 && x.age > s[0].age {
      InsertByAgeBound(x, s[1..], b);
      var r' := InsertByAge(x, s[1..]);
      assert InsertByAge(x, s) == [s[0]] + r';
      assert forall k | 0 < k < |r'| + 1 :: InsertByAge(x, s)[k] == r'[k - 1];
    }
  }

  lemma ConsSorted(y: User, t: seq<User>)
    requires SortedByAge(t) && forall k | 0 <= k < |t| :: y.age <= t[k].age
    ensures SortedByAge([y] + t)
  {
    var r := [y] + t;
    assert forall k | 0 < k < |r| :: r[k] == t[k - 1];
  }

  lemma {:induction false} InsertByAgeSorted(x: User, s: seq<User>)
    requires SortedByAge(s)
    ensures SortedByAge(InsertByAge(x, s))
    decreases |s|
  {
    if |s| == 0 || x.age <= s[0].age {
      ConsSorted(x, s);
    } else {
      InsertByAgeSorted(x, s[1..]);
      InsertByAgeBound(x, s[1..], s[0].age);
      ConsSorted(s[0], InsertByAge(x, s[1..]));
    }
  }

  lemma WithAgeSingleton(y: User, k: int)
    ensures WithAge([y], k) == if y.age == k then [y] else []
  {
    assert [y][1..] == [];
  }

  lemma {:induction false} InsertByAgeWithAge(x: User, s: seq<User>, k: int)
    ensures WithAge(InsertByAge(x, s), k) == WithAge([x], k) + WithAge(s, k)
    decreases |s|
  {
    if |s| == 0 || x.age <= s[0].age {
      WithAgeAppend([x], s, k);
    } else {
      var r' := InsertByAge(x, s[1..]);
      InsertByAgeWithAge(x, s[1..], k);
      WithAgeAppend([s[0]], r', k);
      WithAgeAppend([s[0]], s[1..], k);
      WithAgeSingleton(x, k);
      WithAgeSingleton(s[0], k);
      assert InsertByAge(x, s) == [s[0]] + r';
      assert s == [s[0]] + s[1..];
      var A, X, B := WithAge([s[0]], k), WithAge([x], k), WithAge(s[1..], k);
      assert A == [] || X == [];
      EmptyCommutes(A, X, B);
    }
  }

  /** When one of two sequences is empty, their order in a concatenation does not matter. */
  lemma EmptyCommutes<T>(a: seq<T>, x: seq<T>, b: seq<T>)
    requires a == [] || x == []
    ensures a + (x + b) == x + (a + b)
  {
    if a == [] {
      assert a + (x + b) == x + b == x + (a + b);
    } else {
      assert a + (x + b) == a + b == x + (a + b);
    }
  }

  /** The reference sort orders by age. */
  lemma {:induction false} StableSortByAgeSorted(s: seq<User>)
    ensures SortedByAge(StableSortByAge(s))
    decreases |s|
  {
    if |s| > 0 {
      StableSortByAgeSorted(s[1..]);
      InsertByAgeSorted(s[0], StableSortByAge(s[1..]));
    }
  }

  /** The reference sort keeps every row. */
  lemma {:induction false} StableSortByAgeMultiset(s: seq<User>)
    ensures multiset(StableSortByAge(s)) == multiset(s)
    decreases |s|
  {
    if |s| > 0 {
      StableSortByAgeMultiset(s[1..]);
      InsertByAgeMultiset(s[0], StableSortByAge(s[1..]));
      assert s == [s[0]] + s[1..];
    }
  }

  /** The reference sort keeps the order of the rows within each age. */
  lemma {:induction false} StableSortByAgeStable(s: seq<User>)
    ensures SameAgeOrder(StableSortByAge(s), s)
    decreases |s|
  {
    if |s| > 0 {
      StableSortByAgeStable(s[1..]);
      forall k ensures WithAge(StableSortByAge(s), k) == WithAge(s, k) {
        InsertByAgeWithAge(s[0], StableSortByAge(s[1..]), k);
        WithAgeCons(s, k);
      }
    }
  }

  /** The reference sort orders by age, keeps each age's rows in order and drops nothing. */
  lemma StableSortByAgeCorrect(s: seq<User>)
    ensures SortedByAge(StableSortByAge(s))
    ensures SameAgeOrder(StableSortByAge(s), s)
    ensures multiset(StableSortByAge(s)) == multiset(s)
  {
    StableSortByAgeSorted(s);
    StableSortByAgeMultiset(s);
    StableSortByAgeStable(s);
  }

  lemma WithAgeCons(s: seq<User>, k: int)
    requires |s| > 0
    ensures WithAge(s, k) == WithAge([s[0]], k) + WithAge(s[1..], k)
  {
    WithAgeAppend([s[0]], s[1..], k);
    assert s == [s[0]] + s[1..];
  }

  lemma NonEmptyHasAge(u: seq<User>)
    ensures |u| > 0 ==> WithAge(u, u[0].age) != []
  {
    if |u| > 0 {
      assert WithAge(u, u[0].age) == [u[0]] + WithAge(u[1..], u[0].age);
    }
  }

  /** Two stable orderings by age of the same rows start with the same row. */
  lemma HeadsAgree(t: seq<User>, u: seq<User>)
    requires SortedByAge(t) && SortedByAge(u) && SameAgeOrder(t, u) && |t| > 0
    ensures |u| > 0 && t[0] == u[0]
  {
    var m := t[0].age;
    assert WithAge(t, m) == WithAge(u, m);
    assert WithAge(t, m) == [t[0]] + WithAge(t[1..], m);
    WithAgeMembers(u, m);
    assert t[0] in u;
    var i :| 0 <= i < |u| && u[i] == t[0];
    var m' := u[0].age;
    assert WithAge(t, m') == WithAge(u, m');
    assert WithAge(u, m') == [u[0]] + WithAge(u[1..], m');
    WithAgeMembers(t, m');
    assert u[0] in t;
    var j :| 0 <= j < |t| && t[j] == u[0];
    assert u[0].age <= u[i].age;
    assert t[0].age <= t[j].age;
    assert WithAge(u, m) == [u[0]] + WithAge(u[1..], m);
    assert WithAge(t, m)[0] == t[0] && WithAge(u, m)[0] == u[0];
  }

  /** Dropping a common first row keeps the order within every age. */
  lemma TailsSameAgeOrder(t: seq<User>, u: seq<User>)
    requires |t| > 0 && |u| > 0 && t[0] == u[0] && SameAgeOrder(t, u)
    ensures SameAgeOrder(t[1..], u[1..])
  {
    forall k ensures WithAge(t[1..], k) == WithAge(u[1..], k) {
      WithAgeCons(t, k);
      WithAgeCons(u, k);
      var A, B, C := WithAge([t[0]], k), WithAge(t[1..], k), WithAge(u[1..], k);
      assert A + B == A + C by {
        assert WithAge(t, k) == WithAge(u, k);
      }
      assert B == (A + B)[|A|..];
      assert C == (A + C)[|A|..];
    }
  }

  /** Sorted by age and in the same order within each age determines the sequence: there is
      exactly one stable ordering of a list by age. */
  lemma {:induction false} StableOrderUnique(t: seq<User>, u: seq<User>)
    requires SortedByAge(t) && SortedByAge(u) && SameAgeOrder(t, u)
    ensures t == u
    decreases |t|
  {
    if |t| == 0 {
      NonEmptyHasAge(u);
    } else {
      HeadsAgree(t, u);
      TailsSameAgeOrder(t, u);
      StableOrderUnique(t[1..], u[1..]);
      assert t == [t[0]] + t[1..];
      assert u == [u[0]] + u[1..];
    }
  }

  /** Positions `lo` and onward are in age order. */
  predicate SortedFrom(s: seq<User>, lo: int)
  {
    forall p, q | lo <= p < q < |s| && 0 <= p :: s[p].age <= s[q].age
  }

  /** No row before position `m` is older than a row from `m` on. */
  predicate SplitAt(s: seq<User>, m: int)
  {
    forall p, q | 0 <= p < m <= q < |s| :: s[p].age <= s[q].age
  }

  /** No row before position `j` is older than the row at `j`. */
  predicate OldestAt(s: seq<User>, j: int)
    requires 0 <= j < |s|
  {
    forall p | 0 <= p < j :: s[p].age <= s[j].age
  }

  /** One comparison of the bubble sort: neighbours `j` and `j + 1` exchanged when the left
      one is strictly older. */
  function CompareExchange(s: seq<User>, j: int): seq<User>
    requires 0 <= j < |s| - 1
  {
    if s[j].age > s[j + 1].age then s[j := s[j + 1]][j + 1 := s[j]] else s
  }

  /** The state of the sort while it holds the rows `orig` had: each age in its original
      order, the back from `lo` sorted and no younger than the front. */
  ghost predicate Arranged(s: seq<User>, orig: seq<User>, lo: int)
  {
    && multiset(s) == multiset(orig)
    && SameAgeOrder(s, orig)
    && SortedFrom(s, lo) && SplitAt(s, lo)
  }

  /** A comparison inside the unsorted front keeps the rows and their order within each age. */
  lemma ExchangeKeepsRows(s: seq<User>, orig: seq<User>, j: int)
    requires 0 <= j < |s| - 1
    requires multiset(s) == multiset(orig) && SameAgeOrder(s, orig)
    ensures multiset(CompareExchange(s, j)) == multiset(orig)
    ensures SameAgeOrder(CompareExchange(s, j), orig)
  {
    if s[j].age > s[j + 1].age {
      SwapKeepsAgeOrder(s, j);
      SameAgeOrderTransitive(CompareExchange(s, j), s, orig);
    }
  }

  /** A comparison inside the unsorted front `s[..lo]` leaves the sorted back alone and moves
      the oldest row seen so far one place on. */
  lemma ExchangeKeepsBack(s: seq<User>, j: int, lo: int)
    requires 0 <= j < lo - 1 && lo <= |s|
    requires SortedFrom(s, lo) && SplitAt(s, lo) && OldestAt(s, j)
    ensures SortedFrom(CompareExchange(s, j), lo) && SplitAt(CompareExchange(s, j), lo)
    ensures OldestAt(CompareExchange(s, j), j + 1)
  {
    var t := CompareExchange(s, j);
    assert forall q | lo <= q < |s| :: t[q] == s[q];
    assert forall p | 0 <= p < lo :: t[p] == s[p] || t[p] == s[j] || t[p] == s[j + 1];
  }

  lemma CompareExchangeStep(s: seq<User>, orig: seq<User>, j: int, lo: int)
    requires 0 <= j < lo - 1 && lo <= |s|
    requires Arranged(s, orig, lo) && OldestAt(s, j)
    ensures Arranged(CompareExchange(s, j), orig, lo)
    ensures OldestAt(CompareExchange(s, j), j + 1)
  {
    ExchangeKeepsRows(s, orig, j);
    ExchangeKeepsBack(s, j, lo);
  }

  /** After a full pass over the front `s[..lo]`, its oldest row sits at `lo - 1`, so the
      sorted back grows by one position. */
  lemma PassComplete(s: seq<User>, orig: seq<User>, lo: int)
    requires 1 <= lo <= |s|
    requires Arranged(s, orig, lo) && OldestAt(s, lo - 1)
    ensures Arranged(s, orig, lo - 1)
  {
  }

  /** Once at most one row is left in the unsorted front, the whole sequence is sorted. */
  lemma AllPassesComplete(s: seq<User>, orig: seq<User>, lo: int)
    requires lo <= 1 && Arranged(s, orig, lo)
    ensures SortedByAge(s) && multiset(s) == multiset(orig) && SameAgeOrder(s, orig)
  {
  }

  lemma SameAgeOrderTransitive(s: seq<User>, t: seq<User>, u: seq<User>)
    requires SameAgeOrder(s, t) && SameAgeOrder(t, u)
    ensures SameAgeOrder(s, u)
  {
  }

  /** One pass of the bubble sort over the unsorted front `a[..lo]`: compares neighbours left
      to right and leaves the oldest front row at `lo - 1`. */
  method BubblePass(a: array<User>, lo: int, ghost orig: seq<User>)
    requires 1 <= lo <= a.Length
    requires Arranged(a[..], orig, lo)
    modifies a
    ensures Arranged(a[..], orig, lo - 1)
  {
    var j := 0;
    while j < lo - 1
      invariant 0 <= j <= lo - 1
      invariant Arranged(a[..], orig, lo) && OldestAt(a[..], j)
    {
      ghost var before := a[..];
      CompareExchangeStep(before, orig, j, lo);
      if a[j].age > a[j + 1].age {
        a[j], a[j + 1] := a[j + 1], a[j];
        assert a[..] == before[j := before[j + 1]][j + 1 := before[j]];
      }
      assert a[..] == CompareExchange(before, j);
      j := j + 1;
    }
    PassComplete(a[..], orig, lo);
  }

  /** The bubble sort of the sort button, on a copy of the rows: pass `i` carries the oldest
      row of the unsorted front to position `n - i - 1`, exchanging neighbours only when the
      left one is strictly older. The result is the unique stable ordering by age. */
  method SortUsersByAge(users: seq<User>) returns (sorted: seq<User>)
    ensures SortedByAge(sorted)
    ensures multiset(sorted) == multiset(users)
    ensures SameAgeOrder(sorted, users)
    ensures sorted == StableSortByAge(users)
  {
    var a := new User[|users|](k requires 0 <= k < |users| => users[k]);
    assert a[..] == users;
    var n := a.Length;
    var i := 0;
    while i < n - 1
      invariant 0 <= i <= n
      invariant Arranged(a[..], users, n - i)
    {
      BubblePass(a, n - i, users);
      i := i + 1;
    }
    sorted := a[..];
    AllPassesComplete(sorted, users, n - i);
    StableSortByAgeCorrect(users);
    SameAgeOrderTransitive(sorted, users, StableSortByAge(users));
    StableOrderUnique(sorted, StableSortByAge(users));
  }
}

=== FILE: catalog.dfy ===
/** The add, update and remove buttons of the form, as operations on the `Users` table.
    The table is the sequence of its rows in the order the database lists them. */
module Catalog {
  import opened Common
  import opened Text
  import opened Int32Text
  import opened Users

  /** Why an operation left the table as it was. */
  datatype Reason =
    | MissingField    // a required text box is empty or white space
    | InvalidAge      // the age text is not a 32-bit integer
    | DuplicateEmail  // a row already has the email
    | NoModelLoaded   // no trained model to predict the department with
    | NotFound        // the selected row is no longer in the table

  datatype Status = Done | NoSelection | Cancelled | Rejected(reason: Reason)

  /** The table after an operation, and how the operation ended. */
  datatype Step = Step(db: seq<User>, status: Status)

  /** What the form holds when a button is pressed: the four text boxes and the
      drop-down list's selected item. */
  datatype Entry = Entry(
    name: string,
    email: string,
    ageText: string,
    description: string,
    department: Option<string>)

  /** All four text boxes hold something other than white space. */
  predicate Filled(e: Entry)
  {
    !IsBlank(e.name) && !IsBlank(e.email) && !IsBlank(e.ageText) && !IsBlank(e.description)
  }

  /** The add button. The checks run in this order: every text box filled, the age an `int`,
      the email new to the table, a model loaded; then one row is appended carrying the
      predicted department. `newId` is the key the database assigns. */
  function Add(db: seq<User>, e: Entry, predict: Option<string -> string>, newId: int): (r: Step)
    requires !HasId(db, newId)
    ensures r.status == Done <==>
      Filled(e) && ParseInt32(e.ageText).Some? && !HasEmail(db, e.email) && predict.Some?
    ensures r.status != Done ==> r.db == db
    ensures r.status == Rejected(MissingField) <==> !Filled(e)
    ensures r.status == Rejected(InvalidAge) <==> Filled(e) && ParseInt32(e.ageText).None?
    ensures r.status == Rejected(DuplicateEmail) <==>
      Filled(e) && ParseInt32(e.ageText).Some? && HasEmail(db, e.email)
    ensures r.status == Rejected(NoModelLoaded) <==>
      Filled(e) && ParseInt32(e.ageText).Some? && !HasEmail(db, e.email) && predict.None?
    ensures r.status == Done ==>
      && |r.db| == |db| + 1
      && r.db[..|db|] == db
      && r.db[|db|].id == newId
      && r.db[|db|].name == e.name
      && r.db[|db|].email == e.email
      && Some(r.db[|db|].age) == ParseInt32(e.ageText)
      && r.db[|db|].description == e.description
      && r.db[|db|].predictedDepartment == predict.value(e.description)
      && r.db[|db|].department == e.department
    ensures Valid(db) ==> Valid(r.db)
    ensures EmailsDistinct(db) ==> EmailsDistinct(r.db)
  {
    if !Filled(e) then Step(db, Rejected(MissingField))
    else
      match ParseInt32(e.ageText)
      case None => Step(db, Rejected(InvalidAge))
      case Some(age) => Insert(db, e, age, predict, newId)
  }

  /** The add button once the text boxes and the age have been checked: refuses an email
      already in the table, then predicts the department (which needs a trained model) and
      appends the new row. */
  function Insert(db: seq<User>, e: Entry, age: int, predict: Option<string -> string>, newId: int): (r: Step)
    requires !HasId(db, newId) && InInt32(age)
    ensures r.status == Done <==> !HasEmail(db, e.email) && predict.Some?
    ensures r.status == Rejected(DuplicateEmail) <==> HasEmail(db, e.email)
    ensures r.status == Rejected(NoModelLoaded) <==> !HasEmail(db, e.email) && predict.None?
    ensures r.status != Done ==> r.db == db
    ensures r.status == Done ==>
      && |r.db| == |db| + 1
      && r.db[..|db|] == db
      && r.db[|db|] == User(newId, e.name, e.email, age, e.description, predict.value(e.description), e.department)
    ensures Valid(db) ==> Valid(r.db)
    ensures EmailsDistinct(db) ==> EmailsDistinct(r.db)
  {
    if HasEmail(db, e.email) then Step(db, Rejected(DuplicateEmail))
    else
      match predict
      case None => Step(db, Rejected(NoModelLoaded))
      case Some(f) =>
        Step(Append(db, User(newId, e.name, e.email, age, e.description, f(e.description), e.department)), Done)
  }

  /** The table with `u` inserted as its last row, for a key and email the table does not
      hold yet. */
  function Append(db: seq<User>, u: User): (r: seq<User>)
    requires !HasId(db, u.id) && !HasEmail(db, u.email) && InInt32(u.age)
    ensures |r| == |db| + 1 && r[..|db|] == db && r[|db|] == u
    ensures Valid(db) ==> Valid(r)
    ensures EmailsDistinct(db) ==> EmailsDistinct(r)
  {
    var r := db + [u];
    assert forall i | 0 <= i < |db| :: r[i] == db[i];
    assert r[..|db|] == db;
    r
  }

  /** The row as the update button rewrites it: every field taken from the form except the
      key and the predicted department, which keep their stored values. */
  function Edited(u: User, e: Entry, age: int): User
  {
    u.(name := e.name, email := e.email, age := age, description := e.description,
       department := e.department)
  }

  /** Every row with key `id` rewritten from the form, the others kept. */
  function EditWhere(db: seq<User>, id: int, e: Entry, age: int): seq<User>
  {
    seq(|db|, i requires 0 <= i < |db| => if db[i].id == id then Edited(db[i], e, age) else db[i])
  }

  /** The update button on the selected row (identified by its id). `int.Parse` runs before
      the database is touched, and saving a row whose key is gone fails. Nothing else is
      checked: neither blank text boxes nor an email another row already has. */
  function Update(db: seq<User>, selected: Option<int>, e: Entry): (r: Step)
    ensures r.status != Done ==> r.db == db
    ensures r.status == NoSelection <==> selected.None?
    ensures r.status == Rejected(InvalidAge) <==>
      selected.Some? && ParseInt32(e.ageText).None?
    ensures r.status == Rejected(NotFound) <==>
      selected.Some? && ParseInt32(e.ageText).Some? && !HasId(db, selected.value)
    ensures r.status == Done <==>
      selected.Some? && ParseInt32(e.ageText).Some? && HasId(db, selected.value)
    ensures r.status == Done ==>
      && |r.db| == |db|
      && forall i | 0 <= i < |db| ::
           && r.db[i].id == db[i].id
           && r.db[i].predictedDepartment == db[i].predictedDepartment
           && (db[i].id != selected.value ==> r.db[i] == db[i])
           && (db[i].id == selected.value ==>
                 && r.db[i].name == e.name && r.db[i].email == e.email
                 && Some(r.db[i].age) == ParseInt32(e.ageText)
                 && r.db[i].description == e.description && r.db[i].department == e.department)
    ensures Valid(db) ==> Valid(r.db)
  {
    match selected
    case None => Step(db, NoSelection)
    case Some(id) =>
      match ParseInt32(e.ageText)
      case None => Step(db, Rejected(InvalidAge))
      case Some(age) =>
        if !HasId(db, id) then Step(db, Rejected(NotFound))
        else
          Step(EditWhere(db, id, e, age), Done)
  }

  /** The rows whose id is not `id`, in their original order. */
  function Without(db: seq<User>, id: int): (r: seq<User>)
    ensures |r| <= |db|
  {
    if |db| == 0 then []
    else (if db[0].id == id then [] else [db[0]]) + Without(db[1..], id)
  }

  /** `Without` keeps exactly the rows with another id. */
  lemma {:induction false} WithoutMembers(db: seq<User>, id: int)
    ensures forall u :: u in Without(db, id) <==> u in db && u.id != id
  {
    if |db| > 0 {
      WithoutMembers(db[1..], id);
      assert db == [db[0]] + db[1..];
    }
  }

  /** Nothing to delete leaves the table as it is. */
  lemma {:induction false} WithoutAbsent(db: seq<User>, id: int)
    requires !HasId(db, id)
    ensures Without(db, id) == db
  {
    if |db| > 0 {
      forall k | 0 <= k < |db| - 1
        ensures db[1..][k].id != id
      {
        assert db[1..][k] == db[k + 1];
      }
      WithoutAbsent(db[1..], id);
      assert db == [db[0]] + db[1..];
    }
  }

  lemma {:induction false} WithoutPresent(db: seq<User>, id: int)
    ensures IdsDistinct(db) && HasId(db, id) ==> |Without(db, id)| == |db| - 1
  {
    if IdsDistinct(db) && HasId(db, id) {
      if db[0].id == id {
        forall k | 0 <= k < |db| - 1
          ensures db[1..][k].id != id
        {
          assert db[1..][k] == db[k + 1];
        }
        WithoutAbsent(db[1..], id);
      } else {
        var k :| 0 <= k < |db| && db[k].id == id;
        assert db[1..][k - 1].id == id;
        WithoutPresent(db[1..], id);
      }
    }
  }

  lemma ConsKeepsIds(x: User, rest: seq<User>)
    requires IdsDistinct(rest) && forall k | 0 <= k < |rest| :: rest[k].id != x.id
    ensures IdsDistinct([x] + rest)
  {
    var r := [x] + rest;
    assert forall k | 0 < k < |r| :: r[k] == rest[k - 1];
  }

  lemma ConsKeepsEmails(x: User, rest: seq<User>)
    requires EmailsDistinct(rest) && forall k | 0 <= k < |rest| :: rest[k].email != x.email
    ensures EmailsDistinct([x] + rest)
  {
    var r := [x] + rest;
    assert forall k | 0 < k < |r| :: r[k] == rest[k - 1];
  }

  /** The rows `Without` keeps come from the tail when the head is dropped or kept. */
  lemma WithoutTail(db: seq<User>, id: int, k: int)
    requires |db| > 0 && 0 <= k < |Without(db[1..], id)|
    ensures Without(db[1..], id)[k] in db[1..]
  {
    WithoutMembers(db[1..], id);
    assert Without(db[1..], id)[k] in Without(db[1..], id);
  }

  lemma {:induction false} WithoutKeepsIds(db: seq<User>, id: int)
    requires IdsDistinct(db)
    ensures IdsDistinct(Without(db, id))
  {
    if |db| > 0 {
      WithoutKeepsIds(db[1..], id);
      var rest := Without(db[1..], id);
      if db[0].id != id {
        forall k | 0 <= k < |rest|
          ensures rest[k].id != db[0].id
        {
          WithoutTail(db, id, k);
        }
        ConsKeepsIds(db[0], rest);
      }
    }
  }

  lemma {:induction false} WithoutKeepsEmails(db: seq<User>, id: int)
    requires EmailsDistinct(db)
    ensures EmailsDistinct(Without(db, id))
  {
    if |db| > 0 {
      WithoutKeepsEmails(db[1..], id);
      var rest := Without(db[1..], id);
      if db[0].id != id {
        forall k | 0 <= k < |rest|
          ensures rest[k].email != db[0].email
        {
          WithoutTail(db, id, k);
        }
        ConsKeepsEmails(db[0], rest);
      }
    }
  }

  lemma WithoutKeepsValid(db: seq<User>, id: int)
    requires Valid(db)
    ensures Valid(Without(db, id))
  {
    WithoutKeepsIds(db, id);
    WithoutMembers(db, id);
    var r := Without(db, id);
    forall k | 0 <= k < |r|
      ensures InInt32(r[k].age)
    {
      assert r[k] in r;
    }
  }

  lemma WithoutKeepsInvariants(db: seq<User>, id: int)
    ensures Valid(db) ==> Valid(Without(db, id))
    ensures EmailsDistinct(db) ==> EmailsDistinct(Without(db, id))
  {
    if Valid(db) {
      WithoutKeepsValid(db, id);
    }
    if EmailsDistinct(db) {
      WithoutKeepsEmails(db, id);
    }
  }

  /** Deleting the only row with key `id`, at position `i`, closes the gap and keeps every
      other row in its place. */
  lemma {:induction false} WithoutAt(db: seq<User>, id: int, i: int)
    requires 0 <= i < |db| && db[i].id == id
    requires forall k | 0 <= k < |db| && k != i :: db[k].id != id
    ensures Without(db, id) == db[..i] + db[i + 1..]
    decreases i
  {
    if i == 0 {
      forall k | 0 <= k < |db[1..]|
        ensures db[1..][k].id != id
      {
        assert db[1..][k] == db[k + 1];
      }
      WithoutAbsent(db[1..], id);
      assert db[..0] + db[1..] == db[1..];
    } else {
      var t := db[1..];
      forall k | 0 <= k < |t| && k != i - 1
        ensures t[k].id != id
      {
        assert t[k] == db[k + 1];
      }
      WithoutAt(t, id, i - 1);
      assert t[..i - 1] + t[i..] == db[1..i] + db[i + 1..];
      assert db[..i] == [db[0]] + db[1..i];
    }
  }

  /** With distinct ids, deleting a present key removes its row and keeps the order of the
      rest. */
  lemma WithoutKeepsOrder(db: seq<User>, id: int)
    requires HasId(db, id)
    ensures IdsDistinct(db) ==>
      exists i | 0 <= i < |db| :: db[i].id == id && Without(db, id) == db[..i] + db[i + 1..]
  {
    if IdsDistinct(db) {
      var i :| 0 <= i < |db| && db[i].id == id;
      WithoutAt(db, id, i);
    }
  }

  /** The remove button: after the user confirms, deletes the selected row. Deleting a row
      whose key is gone fails. */
  function Remove(db: seq<User>, selected: Option<int>, confirmed: bool): (r: Step)
    ensures r.status != Done ==> r.db == db
    ensures r.status == NoSelection <==> selected.None?
    ensures r.status == Cancelled <==> selected.Some? && !confirmed
    ensures r.status == Rejected(NotFound) <==> selected.Some? && confirmed && !HasId(db, selected.value)
    ensures r.status == Done <==> selected.Some? && confirmed && HasId(db, selected.value)
    ensures r.status == Done ==> forall u :: u in r.db <==> u in db && u.id != selected.value
    ensures r.status == Done && IdsDistinct(db) ==> |r.db| == |db| - 1
    ensures r.status == Done && IdsDistinct(db) ==>
      exists i | 0 <= i < |db| :: db[i].id == selected.value && r.db == db[..i] + db[i + 1..]
    ensures Valid(db) ==> Valid(r.db)
    ensures EmailsDistinct(db) ==> EmailsDistinct(r.db)
  {
    match selected
    case None => Step(db, NoSelection)
    case Some(id) =>
      if !confirmed then Step(db, Cancelled)
      else if !HasId(db, id) then Step(db, Rejected(NotFound))
      else
        WithoutPresent(db, id);
        WithoutMembers(db, id);
        WithoutKeepsInvariants(db, id);
        WithoutKeepsOrder(db, id);
        Step(Without(db, id), Done)
  }
}

=== FILE: catalog_props.dfy ===
/** Properties relating the add, update and remove buttons to each other and to the
    form's row selection. */
module CatalogProperties {
  import opened Common
  import opened Int32Text
  import opened Users
  import opened Catalog

  /** Selecting a grid row copies the row into the form; the age is written with `ToString`.
      Setting the drop-down list to the row's department selects nothing when the row has
      none, selects the item when the list has it, and otherwise keeps `shown`, the
      selection the list already had. */
  function Selected(u: User, shown: Option<string>): (e: Entry)
    ensures e.name == u.name && e.email == u.email && e.description == u.description
    ensures InInt32(u.age) ==> ParseInt32(e.ageText) == Some(u.age)
    ensures KnownDepartment(u.department) ==> e.department == u.department
    ensures !KnownDepartment(u.department) ==> e.department == shown
  {
    var department :=
      if u.department.None? then None
      else if u.department.value in Departments then u.department
      else shown;
    assert InInt32(u.age) ==> ParseInt32(FormatInt32(u.age)) == Some(u.age) by {
      if InInt32(u.age) {
        ParseFormatRoundTrip(u.age);
      }
    }
    Entry(u.name, u.email, FormatInt32(u.age), u.description, department)
  }

  /** Pressing update right after selecting a row, without editing, leaves the table as it
      was, provided the row's department is one the drop-down list offers. */
  lemma {:induction false} UpdateUnchangedSelectionIsNoOp(db: seq<User>, k: int, shown: Option<string>)
    requires Valid(db) && 0 <= k < |db|
    requires KnownDepartment(db[k].department)
    ensures Update(db, Some(db[k].id), Selected(db[k], shown)) == Step(db, Done)
  {
    var u := db[k];
    var e := Selected(u, shown);
    ParseFormatRoundTrip(u.age);
    var r := Update(db, Some(u.id), e);
    assert HasId(db, u.id);
    assert r.status == Done;
    forall i | 0 <= i < |db|
      ensures r.db[i] == db[i]
    {
      if db[i].id == u.id {
        assert i == k;
      }
    }
  }

  /** The update button does not re-check email uniqueness: giving one row the email of
      another row is accepted and leaves two rows with the same email. */
  lemma UpdateCanDuplicateEmail(db: seq<User>, k: int, m: int, e: Entry)
    requires Valid(db) && 0 <= k < |db| && 0 <= m < |db| && k != m
    requires ParseInt32(e.ageText).Some? && e.email == db[m].email
    ensures Update(db, Some(db[k].id), e).status == Done
    ensures !EmailsDistinct(Update(db, Some(db[k].id), e).db)
  {
    assert HasId(db, db[k].id);
    var r := Update(db, Some(db[k].id), e);
    assert r.db[k].email == db[m].email;
    assert r.db[m] == db[m];
    if k < m {
      assert r.db[k].email == r.db[m].email;
    } else {
      assert r.db[m].email == r.db[k].email;
    }
  }

  /** A successful add leaves a table one row longer that holds the new email and no
      key other than the old ones and the new one. */
  lemma AddedRow(db: seq<User>, e: Entry, predict: Option<string -> string>, newId: int, other: int)
    requires !HasId(db, newId) && !HasId(db, other) && newId != other
    requires Filled(e) && ParseInt32(e.ageText).Some? && !HasEmail(db, e.email) && predict.Some?
    ensures
      var db1 := Add(db, e, predict, newId).db;
      |db1| == |db| + 1 && !HasId(db1, other) && HasEmail(db1, e.email)
  {
    var db1 := Insert(db, e, ParseInt32(e.ageText).value, predict, newId).db;
    assert Add(db, e, predict, newId).db == db1;
    forall i | 0 <= i < |db1|
      ensures db1[i].id != other
    {
      if i < |db| {
        assert db1[i] == db1[..|db|][i] == db[i];
      }
    }
    assert db1[|db|].email == e.email;
  }

  /** Once a row with some email has been added, adding another with the same email is
      refused and changes nothing, whatever else the form holds. */
  lemma AddSameEmailRefused(db: seq<User>, e1: Entry, e2: Entry,
                            predict: Option<string -> string>, id1: int, id2: int)
    requires !HasId(db, id1) && !HasId(db, id2) && id1 != id2
    requires Filled(e1) && ParseInt32(e1.ageText).Some? && !HasEmail(db, e1.email) && predict.Some?
    requires Filled(e2) && ParseInt32(e2.ageText).Some? && e2.email == e1.email
    ensures
      var db1 := Add(db, e1, predict, id1).db;
      && |db1| == |db| + 1
      && !HasId(db1, id2)
      && Add(db1, e2, predict, id2) == Step(db1, Rejected(DuplicateEmail))
  {
    AddedRow(db, e1, predict, id1, id2);
    var db1 := Add(db, e1, predict, id1).db;
    assert Add(db1, e2, predict, id2) == Insert(db1, e2, ParseInt32(e2.ageText).value, predict, id2);
  }

  lemma {:induction false} WithoutAppend(db: seq<User>, u: User, id: int)
    ensures Without(db + [u], id) == Without(db, id) + Without([u], id)
    decreases |db|
  {
    if |db| == 0 {
      assert db + [u] == [u];
    } else {
      var h := if db[0].id == id then [] else [db[0]];
      assert (db + [u])[0] == db[0];
      assert (db + [u])[1..] == db[1..] + [u];
      assert Without(db + [u], id) == h + Without(db[1..] + [u], id);
      WithoutAppend(db[1..], u, id);
      assert Without(db, id) == h + Without(db[1..], id);
    }
  }

  /** Removing the row an add just appended gives back the table from before the add. */
  lemma {:induction false} AddThenRemoveRestores(db: seq<User>, e: Entry,
                                                 predict: Option<string -> string>, newId: int)
    requires !HasId(db, newId)
    requires Filled(e) && ParseInt32(e.ageText).Some? && !HasEmail(db, e.email) && predict.Some?
    ensures Remove(Add(db, e, predict, newId).db, Some(newId), true) == Step(db, Done)
  {
    var db1 := Add(db, e, predict, newId).db;
    var u := db1[|db|];
    assert db1 == db + [u];
    assert HasId(db1, newId);
    WithoutAppend(db, u, newId);
    WithoutAbsent(db, newId);
    assert Without([u], newId) == [] + Without([], newId);
  }
}

=== FILE: common.dfy ===
/** Failure-carrying wrappers shared by the other modules. */
module Common {

  /** A value that may be absent: a C# null reference or an unselected item. */
  datatype Option<+T> = None | Some(value: T)

  /** The outcome of an operation that either yields a value or reports why it could not. */
  datatype Result<+T, +E> = Success(value: T) | Failure(error: E)
}

=== FILE: import.dfy ===
/** Reading a user from an import file: only the first line is used, and it must split on
    tabs into exactly four fields, taken in order as name, email, age and description. */
module Import {
  import opened Common
  import opened Text

  const Tab: char := '\t'

  datatype ImportError =
    | EmptyFile       // the file has no lines
    | WrongFieldCount // the first line does not split into four fields

  /** The four text boxes an import fills. */
  datatype Fields = Fields(name: string, email: string, ageText: string, description: string)

  /** The line an import file would hold for `f`. */
  function FieldsLine(f: Fields): string
  {
    Join([f.name, f.email, f.ageText, f.description], Tab)
  }

  predicate TabFree(f: Fields)
  {
    Tab !in f.name && Tab !in f.email && Tab !in f.ageText && Tab !in f.description
  }

  /** Parses the lines of an import file into the four fields. The first line is accepted
      exactly when it holds three tabs (empty fields count); later lines play no part. */
  function LoadUserData(lines: seq<string>): (r: Result<Fields, ImportError>)
    ensures r == Failure(EmptyFile) <==> |lines| == 0
    ensures r.Success? <==> |lines| > 0 && Count(lines[0], Tab) == 3
    ensures r.Success? ==> FieldsLine(r.value) == lines[0] && TabFree(r.value)
  {
    if |lines| == 0 then Failure(EmptyFile)
    else
      var parts := Split(lines[0], Tab);
      if |parts| == 4 then
        assert [parts[0], parts[1], parts[2], parts[3]] == parts;
        Success(Fields(parts[0], parts[1], parts[2], parts[3]))
      else Failure(WrongFieldCount)
  }

  /** Any four tab-free fields written as the first line of a file are read back unchanged,
      whatever follows that line. */
  lemma ImportRoundTrip(f: Fields, rest: seq<string>)
    requires TabFree(f)
    ensures LoadUserData([FieldsLine(f)] + rest) == Success(f)
  {
    var parts := [f.name, f.email, f.ageText, f.description];
    SplitJoin(parts, Tab);
  }

  /** Only the first line matters: files that agree on it import alike. */
  lemma OnlyFirstLineMatters(lines: seq<string>, other: seq<string>)
    requires |lines| > 0 && |other| > 0 && lines[0] == other[0]
    ensures LoadUserData(lines) == LoadUserData(other)
  {
  }
}

=== FILE: int32text.dfy ===
/** Decimal text of a C# `int` (32-bit): `int.TryParse`/`int.Parse` with the default
    `NumberStyles.Integer` (surrounding white space and one leading sign allowed) and
    `int.ToString()`, under a culture whose signs are '+' and '-'. */
module Int32Text {
  import opened Common

  const MinInt32: int := -0x8000_0000
  const MaxInt32: int := 0x7FFF_FFFF

  predicate InInt32(n: int)
  {
    MinInt32 <= n <= MaxInt32
  }

  predicate IsDigit(c: char)
  {
    '0' <= c <= '9'
  }

  /** The white space `NumberStyles.AllowLeadingWhite`/`AllowTrailingWhite` admit:
      U+0009..U+000D and U+0020 (narrower than `char.IsWhiteSpace`). */
  predicate IsNumberSpace(c: char)
  {
    c == ' ' || ('\U{0009}' <= c <= '\U{000D}')
  }

  predicate AllDigits(d: string)
  {
    forall i | 0 <= i < |d| :: IsDigit(d[i])
  }

  predicate AllNumberSpace(w: string)
  {
    forall i | 0 <= i < |w| :: IsNumberSpace(w[i])
  }

  /** Drops leading number white space; the result is a suffix of `s`. */
  function TrimStart(s: string): (t: string)
    ensures |t| <= |s| && t == s[|s| - |t|..]
    ensures |t| > 0 ==> !IsNumberSpace(t[0])
    ensures forall i | 0 <= i < |s| - |t| :: IsNumberSpace(s[i])
  {
    if |s| > 0 && IsNumberSpace(s[0]) then
      var t := TrimStart(s[1..]);
      assert forall i | 1 <= i < |s| - |t| :: s[i] == s[1..][i - 1];
      t
    else s
  }

  /** Drops trailing number white space; the result is a prefix of `s`. */
  function TrimEnd(s: string): (t: string)
    ensures |t| <= |s| && t == s[..|t|]
    ensures |t| > 0 ==> !IsNumberSpace(t[|t| - 1])
    ensures forall i | |t| <= i < |s| :: IsNumberSpace(s[i])
  {
    if |s| > 0 && IsNumberSpace(s[|s| - 1]) then
      var t := TrimEnd(s[..|s| - 1]);
      assert forall i | |t| <= i < |s| - 1 :: s[i] == s[..|s| - 1][i];
      t
    else s
  }

  function DigitValue(c: char): nat
    requires IsDigit(c)
  {
    (c as int) - ('0' as int)
  }

  /** The number a string of decimal digits denotes, most significant digit first. */
  function DigitsValue(d: string): nat
    requires AllDigits(d)
  {
    if |d| == 0 then 0 else 10 * DigitsValue(d[..|d| - 1]) + DigitValue(d[|d| - 1])
  }

  /** White space removed from both ends, as the parser does before reading sign and digits. */
  function Trim(s: string): string
  {
    TrimEnd(TrimStart(s))
  }

  /** Reads an optional sign followed by one or more digits, refusing values outside `int`. */
  function ParseSignedDigits(t: string): (r: Option<int>)
    ensures r.Some? ==> InInt32(r.value)
    ensures r.Some? ==> |t| > 0 && IsDigit(t[|t| - 1])
    ensures r.Some? ==> forall i | 0 <= i < |t| :: IsDigit(t[i]) || (i == 0 && (t[i] == '+' || t[i] == '-'))
  {
    var signed := |t| > 0 && (t[0] == '-' || t[0] == '+');
    var digits := if signed then t[1..] else t;
    if |digits| == 0 || !AllDigits(digits) then None
    else
      var magnitude := DigitsValue(digits);
      var n: int := if signed && t[0] == '-' then -(magnitude as int) else magnitude;
      if InInt32(n) then Some(n) else None
  }

  /** `int.TryParse(s, out n)`: `Some(n)` when it returns true, `None` when it returns false.
      `int.Parse` accepts exactly the same strings and throws where this is `None`. */
  function ParseInt32(s: string): (r: Option<int>)
    ensures r.Some? ==> InInt32(r.value)
  {
    ParseSignedDigits(Trim(s))
  }

  /** Where the parser accepts, the text is white space around a sign and digits, with at
      least one digit: blank text and words are refused. */
  lemma ParsedCharacters(s: string)
    requires ParseInt32(s).Some?
    ensures forall i | 0 <= i < |s| ::
      IsDigit(s[i]) || IsNumberSpace(s[i]) || s[i] == '+' || s[i] == '-'
    ensures exists i | 0 <= i < |s| :: IsDigit(s[i])
  {
    var t := Trim(s);
    var pre, post := TrimSplit(s);
    assert ParseSignedDigits(t).Some?;
    SignedDigitsAround(pre, t, post);
    assert s[|pre| + |t| - 1] == t[|t| - 1];
  }

  /** Every string is the white space `Trim` drops in front, what it keeps, and the white
      space it drops at the end. */
  lemma TrimSplit(s: string) returns (pre: string, post: string)
    ensures s == pre + Trim(s) + post
    ensures AllNumberSpace(pre) && AllNumberSpace(post)
  {
    pre := LeadingSpace(s);
    post := TrailingSpace(TrimStart(s));
    JoinThree(s, pre, TrimStart(s), Trim(s), post);
  }

  lemma JoinThree(s: string, pre: string, u: string, t: string, post: string)
    requires s == pre + u && u == t + post
    ensures s == pre + t + post
  {
    assert pre + (t + post) == pre + t + post;
  }

  /** `TrimStart` drops a run of number white space from the front. */
  lemma LeadingSpace(s: string) returns (pre: string)
    ensures s == pre + TrimStart(s) && AllNumberSpace(pre)
  {
    pre := s[..|s| - |TrimStart(s)|];
  }

  /** `TrimEnd` drops a run of number white space from the end. */
  lemma TrailingSpace(u: string) returns (post: string)
    ensures u == TrimEnd(u) + post && AllNumberSpace(post)
  {
    var t := TrimEnd(u);
    post := u[|t|..];
    forall i | 0 <= i < |post|
      ensures IsNumberSpace(post[i])
    {
      assert post[i] == u[|t| + i];
    }
  }

  /** Sign-and-digit text between two runs of number white space consists only of the
      characters the parser accepts. */
  lemma SignedDigitsAround(pre: string, t: string, post: string)
    requires AllNumberSpace(pre) && AllNumberSpace(post)
    requires forall i | 0 <= i < |t| :: IsDigit(t[i]) || (i == 0 && (t[i] == '+' || t[i] == '-'))
    ensures forall i | 0 <= i < |pre + t + post| ::
      var c := (pre + t + post)[i];
      IsDigit(c) || IsNumberSpace(c) || c == '+' || c == '-'
  {
    var s := pre + t + post;
    forall i | 0 <= i < |s|
      ensures IsDigit(s[i]) || IsNumberSpace(s[i]) || s[i] == '+' || s[i] == '-'
    {
      if i < |pre| {
        assert s[i] == pre[i];
      } else if i < |pre| + |t| {
        assert s[i] == t[i - |pre|];
      } else {
        assert s[i] == post[i - |pre| - |t|];
      }
    }
  }

  /** Text that neither starts nor ends with number white space is parsed as it stands. */
  lemma TrimOfUnpadded(t: string)
    requires |t| > 0 && !IsNumberSpace(t[0]) && !IsNumberSpace(t[|t| - 1])
    ensures Trim(t) == t
  {
  }

  /** An optional sign followed by decimal digits parses to the value they denote, leading
      zeros included, and only when that value fits an `int`. */
  lemma {:induction false} ParseSignedText(sign: string, d: string)
    requires sign == "" || sign == "+" || sign == "-"
    requires |d| > 0 && AllDigits(d)
    ensures
      var v := if sign == "-" then -(DigitsValue(d) as int) else DigitsValue(d) as int;
      ParseInt32(sign + d) == if InInt32(v) then Some(v) else None
  {
    var t := sign + d;
    assert t[|t| - 1] == d[|d| - 1];
    if sign == "" {
      assert t == d;
      assert IsDigit(t[0]);
    } else {
      assert t[0] == sign[0];
      assert t[1..] == d;
    }
    TrimOfUnpadded(t);
  }

  /** `n.ToString()` for a natural number: its decimal digits with no leading zero. */
  function NatDigits(m: nat): (d: string)
    ensures |d| > 0 && AllDigits(d)
    ensures d[0] == '0' <==> m == 0
  {
    if m < 10 then [('0' as int + m) as char]
    else NatDigits(m / 10) + [('0' as int + m % 10) as char]
  }

  /** `n.ToString()` for an `int`: a minus sign before the magnitude when negative. */
  function FormatInt32(n: int): (s: string)
    ensures |s| > 0
    ensures s[0] == '-' <==> n < 0
    ensures AllDigits(if n < 0 then s[1..] else s) && |s| > (if n < 0 then 1 else 0)
    ensures s[if n < 0 then 1 else 0] == '0' ==> s == "0"
  {
    if n < 0 then "-" + NatDigits(-n) else NatDigits(n)
  }

  lemma {:induction false} DigitsValueOfNatDigits(m: nat)
    ensures DigitsValue(NatDigits(m)) == m
  {
    var d := NatDigits(m);
    if m >= 10 {
      DigitsValueOfNatDigits(m / 10);
      assert d[..|d| - 1] == NatDigits(m / 10);
    }
  }

  /** `ToString` writes no white space at either end. */
  lemma FormatIsTrimmed(n: int)
    ensures Trim(FormatInt32(n)) == FormatInt32(n)
  {
    var s := FormatInt32(n);
    assert TrimStart(s) == s;
    assert TrimEnd(s) == s;
  }

  /** The sign and digits `ToString` writes denote `n` again. */
  lemma {:induction false} FormatDenotes(n: int)
    ensures
      var s := FormatInt32(n);
      var signed := s[0] == '-' || s[0] == '+';
      var digits := if signed then s[1..] else s;
      && AllDigits(digits) && |digits| > 0
      && (if signed && s[0] == '-' then -(DigitsValue(digits) as int) else DigitsValue(digits)) == n
  {
    var s := FormatInt32(n);
    var m: nat := if n < 0 then -n else n;
    DigitsValueOfNatDigits(m);
    if n < 0 {
      assert s[1..] == NatDigits(m);
    }
  }

  /** Reading back the text `ToString` wrote gives the same `int`: the age a selected record
      shows in the age box is the age an update stores. */
  lemma {:induction false} ParseFormatRoundTrip(n: int)
    requires InInt32(n)
    ensures ParseInt32(FormatInt32(n)) == Some(n)
  {
    FormatIsTrimmed(n);
    FormatDenotes(n);
  }

  /** Leading and trailing number white space does not change what is parsed. */
  lemma {:induction false} ParseIgnoresPadding(pre: string, s: string, post: string)
    requires AllNumberSpace(pre) && AllNumberSpace(post)
    ensures ParseInt32(pre + s + post) == ParseInt32(s)
  {
    TrimIgnoresPadding(pre, s, post);
  }

  lemma {:induction false} TrimIgnoresPadding(pre: string, s: string, post: string)
    requires AllNumberSpace(pre) && AllNumberSpace(post)
    ensures Trim(pre + s + post) == Trim(s)
  {
    assert pre + s + post == pre + (s + post);
    TrimStartSkipsSpace(pre, s + post);
    var front := TrimStart(s + post);
    assert TrimStart(pre + s + post) == front;
    if AllNumberSpace(s) {
      TrimStartSkipsSpace(s, post);
      TrimStartOfSpace(post);
      TrimStartOfSpace(s);
      assert front == "" == TrimStart(s);
    } else {
      TrimStartAppend(s, post);
      TrimEndSkipsSpace(TrimStart(s), post);
      assert front == TrimStart(s) + post;
    }
  }

  lemma {:induction false} TrimStartSkipsSpace(w: string, s: string)
    requires AllNumberSpace(w)
    ensures TrimStart(w + s) == TrimStart(s)
    decreases |w|
  {
    if |w| > 0 {
      assert (w + s)[1..] == w[1..] + s;
      TrimStartSkipsSpace(w[1..], s);
    } else {
      assert w + s == s;
    }
  }

  lemma {:induction false} TrimStartOfSpace(w: string)
    requires AllNumberSpace(w)
    ensures TrimStart(w) == ""
    decreases |w|
  {
    if |w| > 0 {
      TrimStartOfSpace(w[1..]);
    }
  }

  lemma {:induction false} TrimStartAppend(s: string, post: string)
    requires !AllNumberSpace(s)
    ensures TrimStart(s + post) == TrimStart(s) + post
    decreases |s|
  {
    assert |s| > 0;
    if IsNumberSpace(s[0]) {
      assert (s + post)[1..] == s[1..] + post;
      TrimStartAppend(s[1..], post);
    }
  }

  lemma {:induction false} TrimEndSkipsSpace(s: string, w: string)
    requires AllNumberSpace(w)
    ensures TrimEnd(s + w) == TrimEnd(s)
    decreases |w|
  {
    if |w| > 0 {
      var x := s + w;
      assert x[..|x| - 1] == s + w[..|w| - 1];
      TrimEndSkipsSpace(s, w[..|w| - 1]);
    } else {
      assert s + w == s;
    }
  }

  /** Values outside the 32-bit range are refused rather than wrapped. */
  lemma {:induction false} ParseRefusesOutOfRange(n: int)
    requires !InInt32(n)
    ensures ParseInt32(FormatInt32(n)) == None
  {
    FormatIsTrimmed(n);
    FormatDenotes(n);
  }
}

=== FILE: text.dfy ===
/** Character classes and the tab splitting used by the form's text handling. */
module Text {

  /** `char.IsWhiteSpace`: the Unicode separators (Zs, Zl, Zp) plus U+0009..U+000D and U+0085. */
  predicate IsWhiteSpace(c: char)
  {
    || ('\U{0009}' <= c <= '\U{000D}')
    || c == '\U{0020}' || c == '\U{0085}' || c == '\U{00A0}' || c == '\U{1680}'
    || ('\U{2000}' <= c <= '\U{200A}')
    || c == '\U{2028}' || c == '\U{2029}' || c == '\U{202F}' || c == '\U{205F}' || c == '\U{3000}'
  }

  /** `string.IsNullOrWhiteSpace` on a text box's contents (which is never null):
      the empty string and strings made only of white space. */
  predicate IsBlank(s: string)
  {
    forall i | 0 <= i < |s| :: IsWhiteSpace(s[i])
  }

  /** Number of occurrences of `c` in `s`. */
  function Count(s: string, c: char): nat
  {
    if |s| == 0 then 0
    else (if s[0] == c then 1 else 0) + Count(s[1..], c)
  }

  lemma CountZeroIffAbsent(s: string, c: char)
    ensures Count(s, c) == 0 <==> c !in s
  {
    if |s| > 0 {
      CountZeroIffAbsent(s[1..], c);
      assert s == [s[0]] + s[1..];
    }
  }

  /** The parts joined back with `sep` between consecutive ones. */
  function Join(parts: seq<string>, sep: char): string
    requires |parts| > 0
  {
    if |parts| == 1 then parts[0]
    else parts[0] + [sep] + Join(parts[1..], sep)
  }

  /** `s.Split(sep)`: every occurrence of `sep` ends one part and starts the next, so empty
      parts are kept and the number of parts is one more than the number of separators. */
  function Split(s: string, sep: char): (parts: seq<string>)
    ensures |parts| == Count(s, sep) + 1
    ensures forall k | 0 <= k < |parts| :: sep !in parts[k]
    ensures Join(parts, sep) == s
    decreases |s|
  {
    if |s| == 0 then [""]
    else
      var rest := Split(s[1..], sep);
      if s[0] == sep then
        assert Join([""] + rest, sep) == [sep] + Join(rest, sep) by {
          assert ([""] + rest)[1..] == rest;
        }
        assert s == [s[0]] + s[1..];
        [""] + rest
      else
        var parts := [[s[0]] + rest[0]] + rest[1..];
        assert Join(parts, sep) == [s[0]] + Join(rest, sep) by {
          if |rest| > 1 {
            assert parts[1..] == rest[1..];
          }
        }
        assert s == [s[0]] + s[1..];
        parts
  }

  /** Splitting text that has no separator yields the text itself as the only part. */
  lemma {:induction false} SplitNoSeparator(p: string, sep: char)
    requires sep !in p
    ensures Split(p, sep) == [p]
  {
    CountZeroIffAbsent(p, sep);
  }

  /** A separator-free prefix is glued onto the first part of what follows it. */
  lemma {:induction false} SplitPrefix(p: string, t: string, sep: char)
    requires sep !in p
    ensures Split(p + t, sep) == [p + Split(t, sep)[0]] + Split(t, sep)[1..]
    decreases |p|
  {
    if |p| > 0 {
      SplitPrefix(p[1..], t, sep);
      assert (p + t)[1..] == p[1..] + t;
      assert (p + t)[0] == p[0];
      assert [p[0]] + (p[1..] + Split(t, sep)[0]) == p + Split(t, sep)[0];
    } else {
      var q := Split(t, sep);
      assert p + t == t;
      assert p + q[0] == q[0];
      assert q == [q[0]] + q[1..];
    }
  }

  /** A leading separator ends an empty first part. */
  lemma SplitLeadingSeparator(t: string, sep: char)
    ensures Split([sep] + t, sep) == [""] + Split(t, sep)
  {
    assert ([sep] + t)[1..] == t;
  }

  /** Split undoes Join when no part contains the separator. */
  lemma {:induction false} SplitJoin(parts: seq<string>, sep: char)
    requires |parts| > 0
    requires forall k | 0 <= k < |parts| :: sep !in parts[k]
    ensures Split(Join(parts, sep), sep) == parts
    decreases |parts|
  {
    if |parts| == 1 {
      SplitNoSeparator(parts[0], sep);
    } else {
      var tail := Join(parts[1..], sep);
      assert Join(parts, sep) == parts[0] + ([sep] + tail);
      SplitJoin(parts[1..], sep);
      SplitLeadingSeparator(tail, sep);
      SplitPrefix(parts[0], [sep] + tail, sep);
      var q := Split([sep] + tail, sep);
      assert q == [""] + parts[1..];
      assert q[0] == "" && q[1..] == parts[1..];
      assert parts[0] + q[0] == parts[0];
      assert parts == [parts[0]] + parts[1..];
    }
  }
}

=== FILE: users.dfy ===
/** The `User` record of the catalog and the invariants of the table that stores it. */
module Users {
  import opened Common
  import opened Int32Text

  /** The department names the form's drop-down list offers. */
  const Departments: seq<string> := ["HR", "IT", "Sales", "Finance", "Operations"]

  /** One row of the `Users` table. `age` is a C# `int`; `department` is absent when no
      department was selected in the drop-down list. */
  datatype User = User(
    id: int,
    name: string,
    email: string,
    age: int,
    description: string,
    predictedDepartment: string,
    department: Option<string>)

  /** A department value the drop-down list can produce: no selection or one of its items. */
  predicate KnownDepartment(d: Option<string>)
  {
    d.None? || d.value in Departments
  }

  predicate HasId(db: seq<User>, id: int)
  {
    exists i | 0 <= i < |db| :: db[i].id == id
  }

  predicate HasEmail(db: seq<User>, email: string)
  {
    exists i | 0 <= i < |db| :: db[i].email == email
  }

  /** The primary key: no two rows share an id. */
  predicate IdsDistinct(db: seq<User>)
  {
    forall i, j | 0 <= i < j < |db| :: db[i].id != db[j].id
  }

  /** No two rows share an email address. */
  predicate EmailsDistinct(db: seq<User>)
  {
    forall i, j | 0 <= i < j < |db| :: db[i].email != db[j].email
  }

  /** What every state of the table satisfies: distinct ids and ages that fit an `int`. */
  predicate Valid(db: seq<User>)
  {
    && IdsDistinct(db)
    && (forall i | 0 <= i < |db| :: InInt32(db[i].age))
  }
}
